=== FILE: README.md ===
# Mark-6 predictor: the scoring models and the ensemble, in Dafny

The Mark-6 predictor takes a history of lottery draws (six numbers from
1..49 per draw, newest draw first) and runs eight heuristic "models" over
it. It then combines their outputs with a position-weighted vote.

Six of the models, and the ensemble, share one shape:
1. build a 50-entry integer score table indexed by number;
2. turn it into `{num, score}` rows;
3. drop the row of number 0;
4. sort the rows by descending score with JavaScript's stable
   `Array.prototype.sort`;
5. keep the numbers of the first six (or three) rows.

The other two differ:
- `sumRangeAnalysis` builds no table. It lists the 49 numbers 1..49 with
  `Array.from`, scores each by the floating-point difference
  `Math.abs(avg - num*6/2)` from the average draw sum, and sorts ascending.
  The model encodes this through the same selector: `Closeness` is a
  50-entry table holding minus the (scaled, exact) distance of each number,
  with entry 0 a placeholder the selector drops. `DiffScaled` and
  `SumRangeOrderExact` show that this orders the candidates exactly as the
  source's differences do.
- `rangeDistribution` picks one random number from each of five
  sub-ranges.

This project models the core:
- the shared selector;
- the eight models;
- the ensemble;
- the part of the click handler that refuses an empty history, runs the
  model list in its shipped order and combines the results.

Files:
- `ranking.dfy` (module `Ranking`): the selector.
  - `TopK` is the selector: rows, `slice(1)`, a stable insertion sort, `slice(0, k)`.
  - `IsTopK` is its specification, with no sorting algorithm in it. A number
    is placed before another exactly when its score is higher, or the scores
    tie and its number is smaller.
  - `TopKUnique` shows that the specification determines the output.
- `tables.dfy` (module `Tables`): the score-table folds, as the source
  writes them with `forEach`. Each fold is tied to a reference definition:
  - occurrences in the flattened history;
  - a weighted sum of multiplicities;
  - the largest index of a draw that holds the number.
- `models.dfy` (module `Models`): the eight models. Each is stated as
  "reference score table + `IsTopK`", and comes with lemmas for the
  properties the models promise.
- `combiner.dfy` (module `Combiner`): the ensemble vote, the model list and
  the prediction request.
- `scenarios.dfy` (module `Scenarios`): small histories and prediction lists
  whose outcome the model pins down exactly. Each is derived from the
  specification, not by evaluating the sort.

Numbers are required to lie in 0..49, the index range of the 50-entry
tables. Number 0 is handled the way the code handles it: it is counted in
entry 0, which the selector drops.

An empty history needs no precondition. The code itself gives these results:
- every ranked model returns [1, 2, 3, 4, 5, 6];
- `oddEvenAnalysis` returns [1, 2, 3, 1, 2, 3];
- in `sumRangeAnalysis`, 0/0 is NaN, the comparator's NaN counts as +0, and
  so every candidate ties.

The model gives the same results without a special case. The click handler
refuses an empty history before any model runs.

Where the code and its description differ, the model follows the code:
- **Overdue.** `overdueAnalysis` keeps the LARGEST index at which a number
  occurs, because later draws overwrite earlier ones. So the gap treats the
  last line of the history as the most recent draw, although the history is
  written newest first. `GapExtremes`, `OverdueAbsentAhead`,
  `OverdueSkipsLastDraw` and `OverdueSingleDraw` state what this implies:
  with two or more draws, the model never picks a number of the last line
  (the supposed oldest draw). `OverdueNewestDraw` shows the other side:
  the history [[1..6], [7..12]] gives exactly the newest draw
  [1, 2, 3, 4, 5, 6], ahead of the numbers 13..49 that no draw holds. For example, a one-draw
  history gives [1, 2, 3, 4, 5, 6] whatever was drawn. For that same
  history, "numbers not drawn are ranked ahead of the drawn ones" does not
  hold, because every gap is 1 and the ties go to the smaller numbers.
- **Frequency.** A number that is in every draw is not sure to rank first
  when no other number repeats. On a one-draw history every drawn number
  ties at one occurrence, and the tie goes to the smallest:
  `FrequencySingleDraw` shows that [[5, 1, 2, 3, 4, 6]] gives
  [1, 2, 3, 4, 5, 6]. `FrequencyLeader` states the case that does hold: a
  number that occurs strictly more often than every other ranks first.
  `FrequencyInEveryDraw` derives the rule from it for two or more draws.
- **Range distribution.** `rangeDistribution` returns five numbers, not six.
  The `slice(0, 6)` leaves its five-element list unchanged.

## Model

| member | source | states |
|---|---|---|
| Ranking.Insert | script.js:16 | stable insertion of a row whose number is below every sorted row: the result is sorted and holds exactly the old rows plus the new one |
| Ranking.SortEntries | script.js:16 | the sort of rows arriving in ascending number order is a permutation of them (same multiset) and is sorted by descending score, smaller number first on ties |
| Ranking.Rows | script.js:14-15 | `map` to rows then `slice(1)`: row i is number i + 1 with its score, so row 0 is gone |
| Ranking.Nums | script.js:17-18 | `slice(0, k)` then `map(o => o.num)`: k numbers, the i-th being the number of row i |
| Ranking.TopK | script.js:13-18 | the selector's output meets `IsTopK`: k distinct numbers of 1..49, each placed before the later ones (higher score, or equal score and smaller number), and each placed before every unselected candidate |
| Ranking.PlacedBest | script.js:16-17 | position i of a valid ranking holds the best candidate not already placed before i |
| Ranking.TopKUnique | script.js:13-18 | two rankings that both meet the specification are equal |
| Ranking.TopKCharacterized | script.js:13-18 | any ranking meeting the specification is exactly what the selector returns |
| Ranking.TopKConstant | script.js:13-18 | a table whose candidates all score the same (e.g. all zero) yields 1, 2, ..., k |
| Ranking.TopKLevel | script.js:16-17 | an ascending list of equal-score candidates is selected when every other candidate scores less, or ties with a larger number |
| Ranking.LeaderFirst | script.js:16-17 | a candidate scoring strictly more than all others is ranked first |
| Ranking.TopKThreshold | script.js:16-17 | if at least k candidates score v or more, every selected number scores v or more |
| Tables.Filled | script.js:11 | `Array(50).fill(v)` has 50 entries, all v |
| Tables.AddDraw | script.js:12 | the per-draw walk `draw.forEach(num => t[num] += weight)` keeps the table at 50 entries; what it adds is stated by `AddDrawCounts` |
| Tables.AddDrawCounts | script.js:12 | after `draw.forEach(num => t[num] += weight)`, entry n has grown by the weight once per occurrence of n in the draw |
| Tables.Tally | script.js:12 | walking the history from a zero table gives each entry the reference weighted count Σ weight(i, n) · multiplicity of n in draw i |
| Tables.CountTable | script.js:11-12 | with unit weight, the walk counts every occurrence: entry n is the number of times n occurs in the flattened history |
| Tables.UniformCount | script.js:12 | a weight that is the same for every draw makes the weighted count that weight times the occurrences |
| Tables.MarkDraw | script.js:24 | `draw.forEach(num => lastSeen[num] = idx)` sets exactly the drawn numbers to idx and leaves the rest |
| Tables.LastSeen | script.js:23-24 | after the walk, lastSeen[n] is -1 exactly when no draw holds n; otherwise some draw at that index holds n and no later draw does |
| Tables.AddDrawSum | script.js:121 | adding the same weight w for each number of a draw raises the table total by w times the draw length |
| Tables.OccurrencesOfCopies | script.js:12 | a history of rearrangements of one draw holds each number the history length times the draw's multiplicity |
| Models.FrequencyAnalysis | script.js:10-19 | the output is the top six of the occurrence table |
| Models.FrequencyLeader | script.js:10-19 | a number occurring strictly more often than every other candidate comes first |
| Models.InEveryDraw | script.js:12 | a number held by every draw occurs at least once per draw |
| Models.FrequencyInEveryDraw | script.js:10-19 | with two or more draws, a number in every draw comes first when no other number occurs more than once |
| Models.Gaps | script.js:25-26 | an absent number's gap is the history length; a seen number's gap lies in 1..len, the draw at len − gap holds it, and no later draw does |
| Models.OverdueAnalysis | script.js:22-31 | the output is the top six of the gap table |
| Models.GapExtremes | script.js:26 | no gap exceeds that of a number absent from the history; numbers of the highest-index draw have gap 1, the minimum |
| Models.OverdueAbsentAhead | script.js:24-28 | with two or more draws, a number no draw holds has a strictly larger gap than, and so is ranked ahead of, every number of the highest-index draw |
| Models.OlderGap | script.js:24-26 | with two or more draws, a number missing from the highest-index draw has a gap of at least 2 |
| Models.OverdueSkipsLastDraw | script.js:22-31 | with two or more draws and a highest-index draw of at most 43 numbers (six, for any parsed line), no selected number belongs to that draw |
| Models.OverdueSingleDraw | script.js:22-31 | on a one-draw history every gap is 1 and the output is [1, 2, 3, 4, 5, 6] |
| Models.HotColdAnalysis | script.js:34-44 | the output is the top six of the occurrence table of draws[0 .. floor(len/2)) |
| Models.HotColdShortHistory | script.js:35-37 | with fewer than two draws nothing is counted and the output is [1, 2, 3, 4, 5, 6] |
| Models.Total | script.js:48-49 | the sum of the per-draw sums is the sum of every number in the history |
| Models.SumOfSums | script.js:48-49 | the per-draw sums added up equal the sum of the flattened history |
| Models.SumRangeAnalysis | script.js:47-53 | six distinct numbers of 1..49, ranked by ascending \|total − 3·n·len\| with ties to the smaller number, and each before every unselected candidate |
| Models.SumRangeDependsOnTotal | script.js:48-52 | the output depends only on the grand total of the draw sums and the history length |
| Models.DiffScaled | script.js:49-51 | the exact \|avg − n·6/2\| is \|total − 3·n·len\| divided by len |
| Models.SumRangeOrderExact | script.js:51-52 | comparing the exact differences orders and ties candidates exactly as comparing the integer distances does |
| Models.ParityWeight | script.js:59-60 | the parity test adds 1 for a number of the table's parity and 0 for a number of the other |
| Models.ParityTally | script.js:57-61 | the walk with the parity test fills the odd (even) table with the occurrences of the odd (even) numbers and leaves the others at 0 |
| Models.OddEvenAnalysis | script.js:56-65 | six entries: the top three of the odd table, then the top three of the even table |
| Models.ParityHalf | script.js:62-63 | when three distinct numbers of a parity occur, that parity's top three all have that parity |
| Models.OddEvenOddFirst | script.js:62-64 | with three distinct odd numbers in the history, the first three outputs are odd |
| Models.OddEvenEvenLast | script.js:63-64 | with three distinct even numbers in the history, the last three outputs are even |
| Models.Span | script.js:80-81 | `nums` of a sub-range is lo, lo + 1, ..., hi |
| Models.Take | script.js:85 | `slice(0, 6)` on a list of at most six elements returns it unchanged |
| Models.RangeDistribution | script.js:68-86 | exactly five numbers, the i-th being its sub-range's low end plus the i-th offset, so in the i-th sub-range, strictly increasing, all in 1..49 |
| Models.RangeDistributionOnto | script.js:79-84 | every choice of one number per sub-range is produced by some valid offsets |
| Models.RangeDistributionInjective | script.js:83 | different valid offsets give different outputs |
| Models.Recency | script.js:90 | `weights[idx] = len - idx`: the first draw weighs len, each later draw one less, and every draw of the history weighs 1..len |
| Models.WeightedAverageModel | script.js:89-99 | the output is the top six of the table Σ (len − i) · multiplicity of n in draw i |
| Models.WeightedCountBounds | script.js:90-92 | weights between lo and hi bound the weighted count between lo and hi times the occurrences |
| Models.RecencyScoreBounds | script.js:90-92 | a number's weighted score lies between its count and len times its count |
| Models.MovingAveragePrediction | script.js:102-114 | the output is the top six of the trend table: occurrences in draws[0 .. floor(len/2)) minus occurrences in the rest |
| Combiner.Boost | script.js:120 | every prediction weighs 1 or 2, and 2 exactly for the one in last position |
| Combiner.EnsembleScores | script.js:118-122 | the vote walk gives each number one vote per occurrence in a prediction before the last and two per occurrence in the last |
| Combiner.Ensemble | script.js:117-129 | the output is the top six of the vote table |
| Combiner.BoostSum | script.js:119-122 | the votes cast over a prefix of the list add up to the prefix's total length, plus the last prediction's length once the prefix reaches it |
| Combiner.VotesTotal | script.js:119-128 | the votes add up to the total length of all predictions plus the length of the last |
| Combiner.OnlyInLast | script.js:120-121 | a number listed once by the last prediction and by no other gets exactly 2 votes |
| Combiner.VotesOfCopies | script.js:119-122 | predictions that are all rearrangements of one list give each number (count + 1) times its multiplicity there |
| Combiner.OutputsInTable | script.js:10-114 | every model returns only indices of the 50-entry tables, so the ensemble walk stays inside its table |
| Combiner.ModelPredictions | script.js:136-153 | eight predictions, all in-table, the last being the moving-average model's |
| Combiner.Predict | script.js:132-160 | an empty history is rejected and only an empty one; otherwise the model outputs are the shipped list in order, the last is the moving-average output, and the combined result is the top six of their votes |
| Combiner.BoostGoesToMovingAverage | script.js:120-144 | in the shipped list a number gets its votes from the first seven outputs plus 2 if the moving-average output holds it |
| Scenarios.FrequencySingleDraw | script.js:10-19 | the one-draw history [[5, 1, 2, 3, 4, 6]] gives [1, 2, 3, 4, 5, 6]: 5 is in every draw and nothing repeats, yet the tie goes to 1 |
| Scenarios.FirstSixTie | script.js:28-29 | a table on which 1..6 tie and no larger number scores more yields [1, 2, 3, 4, 5, 6] |
| Scenarios.NewestDrawGaps | script.js:24-26 | on [[1..6], [7..12]] the numbers 1..6 have gap 2 and no other number has a larger one |
| Scenarios.OverdueNewestDraw | script.js:22-31 | the history [[1..6], [7..12]], newest draw first, gives exactly the newest draw [1, 2, 3, 4, 5, 6] |
| Scenarios.OneDrawOccurrences | script.js:12 | on a one-draw history the occurrence count is the multiplicity in that draw |
| Scenarios.FirstSixLead | script.js:16-17 | a table on which 1..6 tie and every larger number scores less yields [1, 2, 3, 4, 5, 6] |
| Scenarios.TwoDrawTrend | script.js:103-108 | on a two-draw history the trend is the newer draw's multiplicity minus the older draw's |
| Scenarios.MovingAverageTwoDraws | script.js:102-114 | the history [[1..6], [7..12]] gives [1, 2, 3, 4, 5, 6] |
| Scenarios.SingleDrawTrend | script.js:103-108 | on a one-draw history the trend is minus the multiplicity in that draw |
| Scenarios.MissingFirst | script.js:109-113 | on minus the multiplicities of a draw, the top six are numbers the draw misses, ascending, with no missed number below the last passed over |
| Scenarios.MovingAverageSingleDraw | script.js:102-114 | a one-draw history gives the six smallest numbers the draw does not hold, in ascending order |
| Scenarios.AllEvenCounts | script.js:57-61 | on [[2, 4, ..., 12]] the odd table is all zero and the even table is 1 exactly at the drawn numbers |
| Scenarios.ZeroFill | script.js:62 | an all-zero parity table gives [1, 2, 3] |
| Scenarios.EvenLead | script.js:63 | an even table that is 1 exactly at 2, 4, ..., 12 gives [2, 4, 6] |
| Scenarios.OddEvenAllEven | script.js:56-65 | [[2, 4, 6, 8, 10, 12]] gives [1, 2, 3, 2, 4, 6]: the odd half is the zero fill, which crosses parity and repeats 2 |
| Scenarios.UnanimousVotes | script.js:118-122 | eight rearrangements of [1..6] give 1..6 nine votes each and every other number none |
| Scenarios.EnsembleUnanimous | script.js:117-129 | eight predictions that each list 1..6 once, in any order, combine to [1, 2, 3, 4, 5, 6] |

## Left out

- The page: DOM lookups, `innerHTML`, the model cards, `alert` and the event
  wiring (script.js:132-169). Only the logic of the click handler is kept: the
  empty-history guard, the model list and the ensemble call. `Rejected`
  stands for the alert.
- `parseResults` (script.js:2-7): string splitting and regular-expression
  matching. The models take the parsed draws directly.
- `generateSampleData` and the sample-data button: they are random and have
  no deterministic behaviour to state.
- `Math.random` in `rangeDistribution` (script.js:83): the offsets are a
  parameter, one per sub-range, each in 0 .. length − 1 (`ValidPicks`).
- The dead `freqPerRange` computation (script.js:70-77): it does not affect
  the result, so `RangeDistribution` takes no history at all.
- Models.SumRangeAnalysis: ranks by exact rational differences (as integer
  distances) rather than IEEE doubles. Ties that double rounding might break
  or create are not modelled.
- Numbers outside 0..49: in JavaScript they would write past the 50-entry
  arrays, or produce `undefined`/`NaN` entries. Every model that indexes a
  table by number requires `AllInTable`. `SumRangeAnalysis` only adds the
  numbers up and needs no such requirement; `RangeDistribution` takes no
  history.
- Draw length: the parser only accepts lines of six numbers. The model
  accepts draws of any length, because no model depends on six.
  `MovingAverageSingleDraw` and `OverdueSkipsLastDraw` ask for a draw of at
  most 43 numbers, so that six candidates are missing from it.
- The engine's sort algorithm is not modelled as such. Any stable sort
  gives the same result, and `TopKUnique` shows that the specification fixes
  the output.

=== FILE: combiner.dfy ===
/** The ensemble vote over the model outputs and the prediction request
    that runs the shipped model list and combines it. */
module Combiner {
  import opened Ranking
  import opened Tables
  import opened Models

  /** `weight = idx === predictions.length - 1 ? 2 : 1`: the prediction in
      last position of the list counts double, whichever model made it. */
  function Boost(count: int): (w: (int, int) -> int)
    ensures forall idx, num :: 1 <= w(idx, num) <= 2 && (w(idx, num) == 2 <==> idx == count - 1)
  {
    (idx, num) => if idx == count - 1 then 2 else 1
  }

  /** Reference table: one vote per occurrence in a prediction before the
      last one, two per occurrence in the last. A number listed twice by
      one prediction is counted twice. */
  function Votes(preds: seq<seq<int>>): (t: seq<int>)
    ensures |t| == Size
  {
    if |preds| == 0 then Filled(0)
    else
      var last := |preds| - 1;
      seq(Size, n => Occurrences(preds[..last], n) + 2 * multiset(preds[last])[n])
  }

  /** The ensemble's `scores` after the walk over the predictions. */
  function EnsembleScores(preds: seq<seq<int>>): (t: seq<int>)
    requires AllInTable(preds)
    ensures t == Votes(preds)
  {
    var t := Tally(preds, Boost(|preds|));
    forall n | 0 <= n < Size ensures t[n] == Votes(preds)[n] {
      if |preds| > 0 {
        var last := |preds| - 1;
        UniformCount(preds[..last], Boost(|preds|), n, 1);
      }
    }
    t
  }

  /** `ensemble`: the six numbers with the most votes. */
  function Ensemble(preds: seq<seq<int>>): (r: seq<int>)
    requires AllInTable(preds)
    ensures IsTopK(Votes(preds), Pick, r)
  {
    TopK(EnsembleScores(preds), Pick)
  }

  /** The total of the vote table after the walk over the first |preds|
      predictions of a list of `count`. */
  lemma {:induction false} BoostSum(preds: seq<seq<int>>, count: nat)
    requires AllInTable(preds) && |preds| <= count
    ensures Sum(Tally(preds, Boost(count))) ==
      |Flatten(preds)| + (if |preds| == count && count > 0 then |preds[count - 1]| else 0)
  {
    if |preds| == 0 {
      SumZero(Filled(0));
    } else {
      var last := |preds| - 1;
      var w := if last == count - 1 then 2 else 1;
      BoostSum(preds[..last], count);
      AddDrawSum(Tally(preds[..last], Boost(count)), preds[last], last, Boost(count), w);
      assert Flatten(preds) == Flatten(preds[..last]) + preds[last];
    }
  }

  /** Every entry of every prediction casts its weight: the votes add up to
      the total length of the predictions plus the length of the last one. */
  lemma VotesTotal(preds: seq<seq<int>>)
    requires AllInTable(preds) && |preds| > 0
    ensures Sum(Votes(preds)) == |Flatten(preds)| + |preds[|preds| - 1]|
  {
    assert EnsembleScores(preds) == Tally(preds, Boost(|preds|));
    BoostSum(preds, |preds|);
  }

  /** A number the last prediction lists once and no other prediction lists
      gets exactly two votes. */
  lemma OnlyInLast(preds: seq<seq<int>>, n: int)
    requires |preds| > 0 && 0 <= n < Size
    requires Occurrences(preds[..|preds| - 1], n) == 0 && multiset(preds[|preds| - 1])[n] == 1
    ensures Votes(preds)[n] == 2
  {
  }

  /** Every model returns numbers of 1..49. */
  lemma OutputsInTable(draws: seq<Draw>, picks: seq<int>)
    requires AllInTable(draws) && ValidPicks(picks)
    ensures InTable(FrequencyAnalysis(draws)) && InTable(OverdueAnalysis(draws))
    ensures InTable(HotColdAnalysis(draws)) && InTable(SumRangeAnalysis(draws))
    ensures InTable(OddEvenAnalysis(draws)) && InTable(RangeDistribution(picks))
    ensures InTable(WeightedAverageModel(draws)) && InTable(MovingAveragePrediction(draws))
  {
    SelectedInTable(OccurrenceTable(draws), Pick, FrequencyAnalysis(draws));
    SelectedInTable(Gaps(draws), Pick, OverdueAnalysis(draws));
    SelectedInTable(OccurrenceTable(draws[..|draws| / 2]), Pick, HotColdAnalysis(draws));
    OddEvenInTable(draws);
    SelectedInTable(RecencyTable(draws), Pick, WeightedAverageModel(draws));
    SelectedInTable(TrendTable(draws), Pick, MovingAveragePrediction(draws));
  }

  lemma OddEvenInTable(draws: seq<Draw>)
    requires AllInTable(draws)
    ensures InTable(OddEvenAnalysis(draws))
  {
    var r := OddEvenAnalysis(draws);
    SelectedInTable(ParityTable(draws, 1), 3, r[..3]);
    SelectedInTable(ParityTable(draws, 0), 3, r[3..]);
    assert forall j :: 0 <= j < 3 ==> r[j] == r[..3][j];
    assert forall j :: 3 <= j < 6 ==> r[j] == r[3..][j - 3];
  }

  lemma EightInTable(a: seq<int>, b: seq<int>, c: seq<int>, d: seq<int>,
                     e: seq<int>, f: seq<int>, g: seq<int>, h: seq<int>)
    requires InTable(a) && InTable(b) && InTable(c) && InTable(d)
    requires InTable(e) && InTable(f) && InTable(g) && InTable(h)
    ensures AllInTable([a, b, c, d, e, f, g, h])
  {
  }

  /** The models in the order of the shipped list. */
  function ModelPredictions(draws: seq<Draw>, picks: seq<int>): (preds: seq<seq<int>>)
    requires AllInTable(draws) && ValidPicks(picks)
    ensures |preds| == 8 && AllInTable(preds)
    ensures preds[7] == MovingAveragePrediction(draws)
  {
    OutputsInTable(draws, picks);
    var preds := [
      FrequencyAnalysis(draws),
      OverdueAnalysis(draws),
      HotColdAnalysis(draws),
      SumRangeAnalysis(draws),
      OddEvenAnalysis(draws),
      RangeDistribution(picks),
      WeightedAverageModel(draws),
      MovingAveragePrediction(draws)
    ];
    EightInTable(preds[0], preds[1], preds[2], preds[3], preds[4], preds[5], preds[6], preds[7]);
    assert preds == [preds[0], preds[1], preds[2], preds[3], preds[4], preds[5], preds[6], preds[7]];
    preds
  }

  /** What a prediction request ends in. */
  datatype Outcome =
    | Rejected                                            // the empty-history alert
    | Predicted(models: seq<seq<int>>, combined: seq<int>)

  /** The click handler without the page: an empty history is refused,
      otherwise every model runs and the ensemble combines their outputs. */
  function Predict(draws: seq<Draw>, picks: seq<int>): (o: Outcome)
    requires AllInTable(draws) && ValidPicks(picks)
    ensures o.Rejected? <==> |draws| == 0
    ensures o.Predicted? ==>
      && o.models == ModelPredictions(draws, picks)
      && o.models[7] == MovingAveragePrediction(draws)
      && IsTopK(Votes(o.models), Pick, o.combined)
  {
    if |draws| == 0 then Rejected
    else
      var preds := ModelPredictions(draws, picks);
      Predicted(preds, Ensemble(preds))
  }

  /** In the shipped list the doubled weight goes to the moving-average
      model: a number gets its votes from the first seven outputs plus two
      if the moving-average output contains it. */
  lemma BoostGoesToMovingAverage(draws: seq<Draw>, picks: seq<int>, n: int)
    requires AllInTable(draws) && ValidPicks(picks) && 0 <= n < Size
    ensures Votes(ModelPredictions(draws, picks))[n] ==
      Occurrences(ModelPredictions(draws, picks)[..7], n)
      + (if n in MovingAveragePrediction(draws) then 2 else 0)
  {
    var preds := ModelPredictions(draws, picks);
    var moving := MovingAveragePrediction(draws);
    VotesAt(preds, n);
    assert preds[|preds| - 1] == moving;
    DistinctMultiplicity(moving, n);
  }

  lemma VotesAt(preds: seq<seq<int>>, n: int)
    requires |preds| > 0 && 0 <= n < Size
    ensures Votes(preds)[n] == Occurrences(preds[..|preds| - 1], n) + 2 * multiset(preds[|preds| - 1])[n]
  {
  }

  /** Predictions that all hold the numbers of `d` give each number its
      multiplicity in `d` once per prediction, and once more for the last. */
  lemma VotesOfCopies(preds: seq<seq<int>>, d: seq<int>, n: int)
    requires |preds| > 0 && 0 <= n < Size
    requires forall i :: 0 <= i < |preds| ==> multiset(preds[i]) == multiset(d)
    ensures Votes(preds)[n] == (|preds| + 1) * multiset(d)[n]
  {
    var earlier := preds[..|preds| - 1];
    EarlierCopies(preds, earlier, d);
    OccurrencesOfCopies(earlier, d, n);
    VotesAt(preds, n);
    var votes, before, m := Votes(preds)[n], Occurrences(earlier, n), multiset(d)[n];
    assert before == |earlier| * m && votes == before + 2 * m;
    CopiesStep(votes, before, m, |preds|);
  }

  lemma EarlierCopies(preds: seq<seq<int>>, earlier: seq<seq<int>>, d: seq<int>)
    requires |preds| > 0 && earlier == preds[..|preds| - 1]
    requires forall i :: 0 <= i < |preds| ==> multiset(preds[i]) == multiset(d)
    ensures forall i :: 0 <= i < |earlier| ==> multiset(earlier[i]) == multiset(d)
  {
    assert forall i :: 0 <= i < |earlier| ==> earlier[i] == preds[i];
  }

  lemma CopiesStep(votes: int, earlier: int, m: int, count: nat)
    requires count > 0 && earlier == (count - 1) * m && votes == earlier + 2 * m
    ensures votes == (count + 1) * m
  {
  }
}

=== FILE: models.dfy ===
/** The eight scoring models of the predictor. Each takes the draw history
    (newest draw first by the input convention) and returns a ranked list of
    numbers. Seven of them are a score table followed by the shared selector
    `TopK`; `RangeDistribution` picks one number per sub-range from offsets
    supplied by the caller in place of `Math.random`. */
module Models {
  import opened Ranking
  import opened Tables

  /** The slice length of the ranked models: six numbers per ticket. */
  const Pick: nat := 6

  /** Reference table: how often each number occurs in the history. */
  function OccurrenceTable(draws: seq<Draw>): (t: seq<int>)
    ensures |t| == Size
  {
    seq(Size, n => Occurrences(draws, n))
  }

  lemma SliceInTable(draws: seq<Draw>, lo: nat, hi: nat)
    requires AllInTable(draws) && lo <= hi <= |draws|
    ensures AllInTable(draws[lo..hi])
  {
    assert forall i :: 0 <= i < hi - lo ==> draws[lo..hi][i] == draws[lo + i];
  }

  // ---------------------------------------------------------------- frequency

  /** `frequencyAnalysis`: the six most frequent numbers. */
  function FrequencyAnalysis(draws: seq<Draw>): (r: seq<int>)
    requires AllInTable(draws)
    ensures IsTopK(OccurrenceTable(draws), Pick, r)
  {
    var freq := CountTable(draws);
    assert freq == OccurrenceTable(draws);
    TopK(freq, Pick)
  }

  /** A number that occurs strictly more often than every other candidate
      ranks first. */
  lemma FrequencyLeader(draws: seq<Draw>, k: int)
    requires AllInTable(draws) && 1 <= k < Size
    requires forall n :: 1 <= n < Size && n != k ==> Occurrences(draws, n) < Occurrences(draws, k)
    ensures FrequencyAnalysis(draws)[0] == k
  {
    LeaderFirst(OccurrenceTable(draws), Pick, FrequencyAnalysis(draws), k);
  }

  /** A number in every draw occurs at least once per draw. */
  lemma {:induction false} InEveryDraw(draws: seq<Draw>, k: int)
    requires forall i :: 0 <= i < |draws| ==> k in draws[i]
    ensures Occurrences(draws, k) >= |draws|
  {
    if |draws| > 0 {
      var last := |draws| - 1;
      assert forall i :: 0 <= i < last ==> draws[..last][i] == draws[i];
      InEveryDraw(draws[..last], k);
      assert Flatten(draws) == Flatten(draws[..last]) + draws[last];
      assert k in multiset(draws[last]);
    }
  }

  /** With two or more draws, a number that is in every draw comes first
      when no other number occurs more than once. */
  lemma FrequencyInEveryDraw(draws: seq<Draw>, k: int)
    requires AllInTable(draws) && |draws| >= 2 && 1 <= k < Size
    requires forall i :: 0 <= i < |draws| ==> k in draws[i]
    requires forall n :: 1 <= n < Size && n != k ==> Occurrences(draws, n) <= 1
    ensures FrequencyAnalysis(draws)[0] == k
  {
    InEveryDraw(draws, k);
    FrequencyLeader(draws, k);
  }

  // ---------------------------------------------------------------- overdue

  /** The gap of every number: history length minus its last-seen index, or
      the history length for a number no draw holds. */
  function Gaps(draws: seq<Draw>): (g: seq<int>)
    requires AllInTable(draws)
    ensures |g| == Size
    ensures forall n :: 0 <= n < Size && Absent(draws, n) ==> g[n] == |draws|
    ensures forall n :: 0 <= n < Size && !Absent(draws, n) ==>
      && 1 <= g[n] <= |draws|
      && n in draws[|draws| - g[n]]
      && forall i :: |draws| - g[n] < i < |draws| ==> n !in draws[i]
  {
    var lastSeen := LastSeen(draws);
    seq(Size, n requires 0 <= n < Size =>
      if lastSeen[n] == -1 then |draws| else |draws| - lastSeen[n])
  }

  /** `overdueAnalysis`: the six numbers with the largest gap. */
  function OverdueAnalysis(draws: seq<Draw>): (r: seq<int>)
    requires AllInTable(draws)
    ensures IsTopK(Gaps(draws), Pick, r)
  {
    TopK(Gaps(draws), Pick)
  }

  /** No number has a larger gap than one no draw holds, and the numbers of
      the highest-index draw have the smallest gap, 1. */
  lemma GapExtremes(draws: seq<Draw>, n: int, m: int)
    requires AllInTable(draws) && 0 <= n < Size && 0 <= m < Size
    ensures Absent(draws, n) ==> Gaps(draws)[m] <= Gaps(draws)[n]
    ensures |draws| > 0 && m in draws[|draws| - 1] ==> Gaps(draws)[m] == 1 && Gaps(draws)[m] <= Gaps(draws)[n]
  {
    var g := Gaps(draws);
    if |draws| > 0 && m in draws[|draws| - 1] {
      assert !Absent(draws, m);
      if !Absent(draws, n) {
        assert g[n] >= 1;
      }
    }
  }

  /** With two or more draws, a number no draw holds is ranked strictly
      ahead of every number of the highest-index draw. */
  lemma OverdueAbsentAhead(draws: seq<Draw>, n: int, m: int)
    requires AllInTable(draws) && |draws| >= 2
    requires 0 <= n < Size && Absent(draws, n)
    requires 0 <= m < Size && m in draws[|draws| - 1]
    ensures Gaps(draws)[m] < Gaps(draws)[n] && Before(Gaps(draws), n, m)
  {
    GapExtremes(draws, n, m);
  }

  /** A number missing from the highest-index draw has a gap of at least 2
      once the history holds two or more draws. */
  lemma OlderGap(draws: seq<Draw>, n: int)
    requires AllInTable(draws) && |draws| >= 2
    requires 0 <= n < Size && n !in draws[|draws| - 1]
    ensures Gaps(draws)[n] >= 2
  {
    var g := Gaps(draws);
    if !Absent(draws, n) {
      assert n in draws[|draws| - g[n]];
    }
  }

  /** With two or more draws and a highest-index draw of at most 43
      numbers, at least six candidates are missing from that draw, each with
      a gap of 2 or more, so the model selects no number of that draw. */
  lemma OverdueSkipsLastDraw(draws: seq<Draw>, j: nat)
    requires AllInTable(draws) && |draws| >= 2 && |draws[|draws| - 1]| <= 43
    requires j < Pick
    ensures OverdueAnalysis(draws)[j] !in draws[|draws| - 1]
  {
    var g := Gaps(draws);
    var d := draws[|draws| - 1];
    var missing := set n | 1 <= n < Size && n !in d;
    MissingCandidates(d);
    forall n | n in missing ensures 1 <= n < Size && g[n] >= 2 {
      OlderGap(draws, n);
    }
    TopKThreshold(g, Pick, 2, missing);
    var m := OverdueAnalysis(draws)[j];
    assert g[m] >= 2;
    GapExtremes(draws, m, m);
  }

  /** On a one-draw history every gap is 1, so the model returns
      [1, 2, 3, 4, 5, 6] whatever was drawn. */
  lemma OverdueSingleDraw(draws: seq<Draw>)
    requires AllInTable(draws) && |draws| == 1
    ensures OverdueAnalysis(draws) == [1, 2, 3, 4, 5, 6]
  {
    var g := Gaps(draws);
    forall n | 1 <= n < Size ensures g[n] == 1 {
      if !Absent(draws, n) {
        assert 1 <= g[n] <= 1;
      }
    }
    TopKConstant(g, Pick, 1);
    FirstSix();
  }

  // ---------------------------------------------------------------- hot/cold

  /** `hotColdAnalysis`: the six most frequent numbers over the first
      floor(len / 2) draws only. */
  function HotColdAnalysis(draws: seq<Draw>): (r: seq<int>)
    requires AllInTable(draws)
    ensures IsTopK(OccurrenceTable(draws[..|draws| / 2]), Pick, r)
  {
    var half := |draws| / 2;
    SliceInTable(draws, 0, half);
    var freqRecent := CountTable(draws[..half]);
    assert freqRecent == OccurrenceTable(draws[..half]);
    TopK(freqRecent, Pick)
  }

  /** With fewer than two draws nothing is counted: [1, 2, 3, 4, 5, 6]. */
  lemma HotColdShortHistory(draws: seq<Draw>)
    requires AllInTable(draws) && |draws| < 2
    ensures HotColdAnalysis(draws) == [1, 2, 3, 4, 5, 6]
  {
    var none: seq<Draw> := [];
    assert draws[..|draws| / 2] == none;
    var t := OccurrenceTable(none);
    assert Flatten(none) == [];
    assert forall n :: 0 <= n < Size ==> t[n] == 0;
    TopKConstant(t, Pick, 0);
    TopKCharacterized(t, Pick, HotColdAnalysis(draws));
    FirstSix();
  }

  // ---------------------------------------------------------------- sum range

  /** `sums.reduce((a, b) => a + b, 0)` over the draw sums: the sum of
      every number drawn. */
  function Total(draws: seq<Draw>): (r: int)
    ensures r == Sum(Flatten(draws))
  {
    SumOfSums(draws);
    Sum(DrawSums(draws))
  }

  /** `sums`: the sum of each draw, in history order. */
  function DrawSums(draws: seq<Draw>): (sums: seq<int>)
    ensures |sums| == |draws|
  {
    seq(|draws|, i requires 0 <= i < |draws| => Sum(draws[i]))
  }

  lemma {:induction false} SumOfSums(draws: seq<Draw>)
    ensures Sum(DrawSums(draws)) == Sum(Flatten(draws))
    decreases |draws|
  {
    if |draws| > 0 {
      var last := |draws| - 1;
      assert DrawSums(draws)[..last] == DrawSums(draws[..last]);
      SumOfSums(draws[..last]);
      SumConcat(Flatten(draws[..last]), draws[last]);
    }
  }

  function Abs(x: int): nat {
    if x < 0 then -x else x
  }

  /** |avg − num·6/2| multiplied by the history length: |total − 3·n·len|. */
  function Distance(total: int, len: nat, n: int): nat {
    Abs(total - 3 * n * len)
  }

  /** m is ranked before n: closer to the average, or as close and smaller. */
  predicate Closer(total: int, len: nat, m: int, n: int) {
    Distance(total, len, m) < Distance(total, len, n)
    || (Distance(total, len, m) == Distance(total, len, n) && m < n)
  }

  /** Candidates scored by closeness; entry 0 is a placeholder the selector
      never returns, as `sumRangeAnalysis`'s candidate list starts at 1. */
  function Closeness(total: int, len: nat): (t: seq<int>)
    ensures |t| == Size
  {
    seq(Size, n => -(Distance(total, len, n) as int))
  }

  /** `sumRangeAnalysis`: the six candidates 1..49 whose `num*6/2` lies
      closest to the average draw sum, the smaller number first on a tie.
      Needs nothing of the draws: it never indexes a table. */
  function SumRangeAnalysis(draws: seq<Draw>): (r: seq<int>)
    ensures |r| == Pick && forall i :: 0 <= i < Pick ==> 1 <= r[i] < Size
    ensures forall i, j :: 0 <= i < j < Pick ==>
      r[i] != r[j] && Closer(Total(draws), |draws|, r[i], r[j])
    ensures forall i, n :: 0 <= i < Pick && 1 <= n < Size && n !in r ==>
      Closer(Total(draws), |draws|, r[i], n)
  {
    var t := Closeness(Total(draws), |draws|);
    var r := TopK(t, Pick);
    assert forall m, n :: 0 <= m < Size && 0 <= n < Size && Before(t, m, n) ==>
      Closer(Total(draws), |draws|, m, n);
    r
  }

  /** Two histories with the same length and the same grand total get the
      same six numbers, however the numbers are spread over the draws. */
  lemma SumRangeDependsOnTotal(a: seq<Draw>, b: seq<Draw>)
    requires |a| == |b| && Total(a) == Total(b)
    ensures SumRangeAnalysis(a) == SumRangeAnalysis(b)
  {
  }

  /** `sumRangeAnalysis`'s difference, in exact arithmetic instead of floating point. */
  function RealDiff(total: int, len: nat, n: int): real
    requires len > 0
  {
    var d := total as real / len as real - (n * 6) as real / 2.0;
    if d < 0.0 then -d else d
  }

  lemma DiffScaled(total: int, len: nat, n: int)
    requires len > 0
    ensures RealDiff(total, len, n) == Distance(total, len, n) as real / len as real
  {
    var L := len as real;
    var q := (3 * n) as real;
    var x := total - 3 * n * len;
    assert (n * 6) as real / 2.0 == q;
    CastProduct(3 * n, len);
    CancelDivide(q, L);
    SubtractQuotients(total as real, q * L, L);
    assert x as real == total as real - q * L;
    var d := total as real / L - (n * 6) as real / 2.0;
    assert d == x as real / L;
    AbsQuotient(x as real, L);
    assert Distance(total, len, n) as real == if x as real < 0.0 then -(x as real) else x as real;
  }

  lemma CastProduct(a: int, b: int)
    ensures (a * b) as real == a as real * b as real
  {
  }

  lemma CancelDivide(a: real, c: real)
    requires c > 0.0
    ensures (a * c) / c == a
  {
  }

  lemma SubtractQuotients(a: real, b: real, c: real)
    requires c > 0.0
    ensures a / c - b / c == (a - b) / c
  {
  }

  lemma AbsQuotient(x: real, c: real)
    requires c > 0.0
    ensures (if x / c < 0.0 then -(x / c) else x / c) == (if x < 0.0 then -x else x) / c
  {
    if x < 0.0 {
      assert x / c < 0.0;
      assert -(x / c) == (-x) / c;
    } else {
      assert x / c >= 0.0;
    }
  }

  /** Ranking by the exact |avg − num·6/2| is ranking by `Distance`: dividing
      by the positive history length keeps both order and ties. */
  lemma SumRangeOrderExact(total: int, len: nat, m: int, n: int)
    requires len > 0
    ensures RealDiff(total, len, m) < RealDiff(total, len, n) <==> Distance(total, len, m) < Distance(total, len, n)
    ensures RealDiff(total, len, m) == RealDiff(total, len, n) <==> Distance(total, len, m) == Distance(total, len, n)
  {
    DiffScaled(total, len, m);
    DiffScaled(total, len, n);
    DivideMonotone(Distance(total, len, m) as real, Distance(total, len, n) as real, len as real);
  }

  lemma DivideMonotone(a: real, b: real, c: real)
    requires c > 0.0
    ensures a / c < b / c <==> a < b
    ensures a / c == b / c <==> a == b
  {
    assert a == (a / c) * c && b == (b / c) * c;
  }

  // ---------------------------------------------------------------- odd/even

  /** The increment of `freqOdd` (p = 1) or `freqEven` (p = 0): 1 for a number
      of that parity, nothing for the other. */
  function ParityWeight(p: int): (w: (int, int) -> int)
    ensures forall idx, num :: 0 <= w(idx, num) <= 1 && (w(idx, num) == 1 <==> num % 2 == p)
  {
    (idx, num) => if num % 2 == p then 1 else 0
  }

  /** Reference table: occurrences of the numbers of parity p, 0 elsewhere. */
  function ParityTable(draws: seq<Draw>, p: int): (t: seq<int>)
    ensures |t| == Size
  {
    seq(Size, n => if n % 2 == p then Occurrences(draws, n) else 0)
  }

  function ParityTally(draws: seq<Draw>, p: int): (t: seq<int>)
    requires AllInTable(draws)
    ensures t == ParityTable(draws, p)
  {
    var t := Tally(draws, ParityWeight(p));
    forall n | 0 <= n < Size ensures t[n] == ParityTable(draws, p)[n] {
      UniformCount(draws, ParityWeight(p), n, if n % 2 == p then 1 else 0);
    }
    t
  }

  /** `oddEvenAnalysis`: the top three of the odd-count table followed by the
      top three of the even-count table. */
  function OddEvenAnalysis(draws: seq<Draw>): (r: seq<int>)
    requires AllInTable(draws)
    ensures |r| == Pick
    ensures IsTopK(ParityTable(draws, 1), 3, r[..3])
    ensures IsTopK(ParityTable(draws, 0), 3, r[3..])
  {
    var topOdd := TopK(ParityTally(draws, 1), 3);
    var topEven := TopK(ParityTally(draws, 0), 3);
    assert (topOdd + topEven)[..3] == topOdd && (topOdd + topEven)[3..] == topEven;
    topOdd + topEven
  }

  /** When at least three distinct numbers of parity p occur, the half of
      the output drawn from that parity's table holds only numbers of parity p. */
  lemma ParityHalf(draws: seq<Draw>, p: int, seen: set<int>, r: seq<int>)
    requires AllInTable(draws) && (p == 0 || p == 1)
    requires forall n :: n in seen ==> 1 <= n < Size && n % 2 == p && Occurrences(draws, n) > 0
    requires |seen| >= 3
    requires IsTopK(ParityTable(draws, p), 3, r)
    ensures forall i :: 0 <= i < 3 ==> r[i] % 2 == p
  {
    var t := ParityTable(draws, p);
    TopKCharacterized(t, 3, r);
    TopKThreshold(t, 3, 1, seen);
  }

  lemma OddEvenOddFirst(draws: seq<Draw>, odds: set<int>)
    requires AllInTable(draws)
    requires forall n :: n in odds ==> 1 <= n < Size && n % 2 == 1 && Occurrences(draws, n) > 0
    requires |odds| >= 3
    ensures forall i :: 0 <= i < 3 ==> OddEvenAnalysis(draws)[i] % 2 == 1
  {
    var r := OddEvenAnalysis(draws);
    ParityHalf(draws, 1, odds, r[..3]);
  }

  lemma OddEvenEvenLast(draws: seq<Draw>, evens: set<int>)
    requires AllInTable(draws)
    requires forall n :: n in evens ==> 1 <= n < Size && n % 2 == 0 && Occurrences(draws, n) > 0
    requires |evens| >= 3
    ensures forall i :: 3 <= i < Pick ==> OddEvenAnalysis(draws)[i] % 2 == 0
  {
    var r := OddEvenAnalysis(draws);
    ParityHalf(draws, 0, evens, r[3..]);
  }

  // ---------------------------------------------------------------- range distribution

  /** The five sub-ranges, inclusive at both ends. */
  const Ranges: seq<(int, int)> := [(1, 10), (11, 20), (21, 30), (31, 40), (41, 49)]

  /** `nums` of a sub-range: lo, lo + 1, ..., hi. */
  function Span(range: (int, int)): (nums: seq<int>)
    requires range.0 <= range.1
    ensures |nums| == range.1 - range.0 + 1
    ensures forall j :: 0 <= j < |nums| ==> nums[j] == range.0 + j
  {
    seq(range.1 - range.0 + 1, j => range.0 + j)
  }

  /** One offset per sub-range, each a valid `Math.floor(Math.random() * nums.length)`. */
  predicate ValidPicks(picks: seq<int>) {
    |picks| == |Ranges| && forall i :: 0 <= i < |Ranges| ==> 0 <= picks[i] <= Ranges[i].1 - Ranges[i].0
  }

  /** `slice(0, k)` */
  function Take(s: seq<int>, k: nat): (r: seq<int>)
    ensures |s| <= k ==> r == s
  {
    if |s| <= k then s else s[..k]
  }

  /** `rangeDistribution` with the random offsets supplied: one number from
      each sub-range, in sub-range order. */
  function RangeDistribution(picks: seq<int>): (r: seq<int>)
    requires ValidPicks(picks)
    ensures |r| == |Ranges| == 5
    ensures forall i :: 0 <= i < 5 ==> r[i] == Ranges[i].0 + picks[i]
    ensures forall i :: 0 <= i < 5 ==> Ranges[i].0 <= r[i] <= Ranges[i].1
    ensures forall i, j :: 0 <= i < j < 5 ==> r[i] < r[j]
    ensures forall i :: 0 <= i < 5 ==> 1 <= r[i] < Size
  {
    var selected := seq(|Ranges|, i requires 0 <= i < |Ranges| => Span(Ranges[i])[picks[i]]);
    Take(selected, Pick)
  }

  /** The offsets that make the model return `target`. */
  function Offsets(target: seq<int>): seq<int>
    requires |target| == |Ranges|
  {
    seq(|Ranges|, i requires 0 <= i < |Ranges| => target[i] - Ranges[i].0)
  }

  /** Every choice of one number per sub-range is returned for exactly one
      choice of offsets. */
  lemma RangeDistributionOnto(target: seq<int>)
    requires |target| == |Ranges|
    requires forall i :: 0 <= i < |Ranges| ==> Ranges[i].0 <= target[i] <= Ranges[i].1
    ensures ValidPicks(Offsets(target)) && RangeDistribution(Offsets(target)) == target
  {
  }

  lemma RangeDistributionInjective(p: seq<int>, q: seq<int>)
    requires ValidPicks(p) && ValidPicks(q) && RangeDistribution(p) == RangeDistribution(q)
    ensures p == q
  {
    forall i | 0 <= i < |Ranges| ensures p[i] == q[i] {
      assert RangeDistribution(p)[i] == RangeDistribution(q)[i];
    }
  }

  // ---------------------------------------------------------------- weighted

  /** `weights[idx] = draws.length - idx`: the first draw weighs the history
      length, the last one 1. */
  function Recency(len: int): (w: (int, int) -> int)
    ensures forall num :: w(0, num) == len
    ensures forall idx, num :: w(idx + 1, num) == w(idx, num) - 1
    ensures forall idx, num :: 0 <= idx < len ==> 1 <= w(idx, num) <= len
  {
    (idx, num) => len - idx
  }

  /** Reference table: Σ over draws i of (len − i) times the multiplicity of n. */
  function RecencyTable(draws: seq<Draw>): (t: seq<int>)
    ensures |t| == Size
  {
    seq(Size, n => WeightedCount(draws, Recency(|draws|), n))
  }

  /** `weightedAverageModel`: the six numbers with the largest recency-weighted count. */
  function WeightedAverageModel(draws: seq<Draw>): (r: seq<int>)
    requires AllInTable(draws)
    ensures IsTopK(RecencyTable(draws), Pick, r)
  {
    var scores := Tally(draws, Recency(|draws|));
    assert scores == RecencyTable(draws);
    TopK(scores, Pick)
  }

  /** Weights between lo and hi bound the weighted count by lo and hi times
      the number of occurrences. */
  lemma {:induction false} WeightedCountBounds(draws: seq<Draw>, weight: (int, int) -> int, n: int, lo: int, hi: int)
    requires 0 <= lo <= hi
    requires forall i :: 0 <= i < |draws| ==> lo <= weight(i, n) <= hi
    ensures lo * Occurrences(draws, n) <= WeightedCount(draws, weight, n) <= hi * Occurrences(draws, n)
  {
    if |draws| > 0 {
      var last := |draws| - 1;
      WeightedCountBounds(draws[..last], weight, n, lo, hi);
      var k := multiset(draws[last])[n];
      var w := weight(last, n);
      var a := Occurrences(draws[..last], n);
      MulMonotone(lo, w, k);
      MulMonotone(w, hi, k);
      assert Flatten(draws) == Flatten(draws[..last]) + draws[last];
      assert Occurrences(draws, n) == a + k;
      Distribute(lo, a, k);
      Distribute(hi, a, k);
    }
  }

  lemma Distribute(c: int, a: int, b: int)
    ensures c * (a + b) == c * a + c * b
  {
  }

  lemma MulMonotone(a: int, b: int, k: nat)
    requires a <= b
    ensures a * k <= b * k
  {
  }

  /** Every occurrence is worth between 1 and len: a number's weighted score
      lies between its count and len times its count. */
  lemma RecencyScoreBounds(draws: seq<Draw>, n: int)
    requires 0 <= n < Size
    ensures Occurrences(draws, n) <= RecencyTable(draws)[n] <= |draws| * Occurrences(draws, n)
  {
    if |draws| > 0 {
      WeightedCountBounds(draws, Recency(|draws|), n, 1, |draws|);
    } else {
      assert Flatten(draws) == [];
    }
  }

  // ---------------------------------------------------------------- moving average

  /** Reference table: occurrences in the first floor(len / 2) draws minus
      occurrences in the remaining draws. */
  function TrendTable(draws: seq<Draw>): (t: seq<int>)
    ensures |t| == Size
  {
    var half := |draws| / 2;
    seq(Size, n => Occurrences(draws[..half], n) - Occurrences(draws[half..], n))
  }

  /** `movingAveragePrediction`: the six numbers with the largest trend. */
  function MovingAveragePrediction(draws: seq<Draw>): (r: seq<int>)
    requires AllInTable(draws)
    ensures IsTopK(TrendTable(draws), Pick, r)
  {
    var half := |draws| / 2;
    SliceInTable(draws, half, |draws|);
    SliceInTable(draws, 0, half);
    var oldFreq := CountTable(draws[half..]);
    var newFreq := CountTable(draws[..half]);
    var trends := seq(Size, n requires 0 <= n < Size => newFreq[n] - oldFreq[n]);
    assert trends == TrendTable(draws);
    TopK(trends, Pick)
  }
}

=== FILE: ranking.dfy ===
/** The selector every scoring model ends with: turn a 50-entry score table
    into rows `{num, score}`, drop the row of number 0, sort the rows stably by
    descending score and keep the numbers of the first k rows.

    The rows arrive in ascending number order, so a stable sort places a row
    before another exactly when its score is higher, or the scores are equal
    and its number is smaller. `IsTopK` states that ranking without reference
    to any sorting algorithm, `TopK` computes it with a stable insertion sort,
    and `TopKUnique` shows the specification leaves no freedom. */
module Ranking {

  /** Score tables are indexed by the numbers 0..49; only 1..49 are candidates. */
  const Size: nat := 50

  /** One row of a score table. */
  datatype Entry = Entry(num: int, score: int)

  /** Row `a` is placed before row `b`. */
  predicate Precedes(a: Entry, b: Entry) {
    a.score > b.score || (a.score == b.score && a.num < b.num)
  }

  predicate Sorted(s: seq<Entry>) {
    forall i, j :: 0 <= i < j < |s| ==> Precedes(s[i], s[j])
  }

  /** The numbers of `s` increase strictly: the order rows arrive in. */
  predicate Ascending(s: seq<Entry>) {
    forall i, j :: 0 <= i < j < |s| ==> s[i].num < s[j].num
  }

  /** Every row of `s` has a larger number than `e`. */
  predicate Below(e: Entry, s: seq<Entry>) {
    forall i :: 0 <= i < |s| ==> e.num < s[i].num
  }

  /** `a` is placed before every row of `s`. */
  predicate PrecedesAll(a: Entry, s: seq<Entry>) {
    forall i :: 0 <= i < |s| ==> Precedes(a, s[i])
  }

  lemma SortedCons(a: Entry, s: seq<Entry>)
    requires PrecedesAll(a, s) && Sorted(s)
    ensures Sorted([a] + s)
  {
    forall i, j | 0 <= i < j < |s| + 1 ensures Precedes(([a] + s)[i], ([a] + s)[j]) {
      if i > 0 {
        assert ([a] + s)[i] == s[i - 1] && ([a] + s)[j] == s[j - 1];
      }
    }
  }

  /** Stable insertion: `e` came before every row of `s` in the input, so it
      goes in front of the first row whose score does not exceed its own. */
  function Insert(e: Entry, s: seq<Entry>): (r: seq<Entry>)
    requires Sorted(s) && Below(e, s)
    ensures multiset(r) == multiset(s) + multiset{e}
    ensures Sorted(r)
  {
    if |s| == 0 then [e]
    else if s[0].score <= e.score then
      assert PrecedesAll(e, s) by {
        forall i | 0 <= i < |s| ensures Precedes(e, s[i]) {
          if i > 0 {
            assert Precedes(s[0], s[i]);
          }
        }
      }
      SortedCons(e, s);
      [e] + s
    else
      var rest := Insert(e, s[1..]);
      assert s == [s[0]] + s[1..];
      InsertHead(e, s, rest);
      SortedCons(s[0], rest);
      [s[0]] + rest
  }

  lemma InsertHead(e: Entry, s: seq<Entry>, rest: seq<Entry>)
    requires Sorted(s) && |s| > 0 && e.score < s[0].score
    requires multiset(rest) == multiset(s[1..]) + multiset{e}
    ensures PrecedesAll(s[0], rest)
  {
    forall i | 0 <= i < |rest| ensures Precedes(s[0], rest[i]) {
      assert rest[i] in multiset(rest);
      if rest[i] != e {
        assert rest[i] in multiset(s[1..]);
        var j :| 0 <= j < |s| - 1 && s[1..][j] == rest[i];
        assert s[j + 1] == rest[i];
      }
    }
  }

  /** A stable sort by descending score of rows in ascending number order. */
  function SortEntries(s: seq<Entry>): (r: seq<Entry>)
    requires Ascending(s)
    ensures multiset(r) == multiset(s)
    ensures Sorted(r)
  {
    if |s| == 0 then []
    else
      var rest := SortEntries(s[1..]);
      FirstBelowRest(s, rest);
      assert s == [s[0]] + s[1..];
      Insert(s[0], rest)
  }

  /** The first row of an ascending input is below any rearrangement of the others. */
  lemma FirstBelowRest(s: seq<Entry>, rest: seq<Entry>)
    requires Ascending(s) && |s| > 0 && multiset(rest) == multiset(s[1..])
    ensures Below(s[0], rest)
  {
    forall i | 0 <= i < |rest| ensures s[0].num < rest[i].num {
      assert rest[i] in multiset(s[1..]);
      var j :| 0 <= j < |s| - 1 && s[1..][j] == rest[i];
      assert s[j + 1] == rest[i];
    }
  }

  /** The rows of numbers 1..49: the table's `map` to rows, then `slice(1)`. */
  function Rows(scores: seq<int>): (r: seq<Entry>)
    requires |scores| == Size
    ensures |r| == Size - 1
    ensures forall i :: 0 <= i < |r| ==> r[i] == Entry(i + 1, scores[i + 1])
  {
    seq(|scores|, n requires 0 <= n < |scores| => Entry(n, scores[n]))[1..]
  }

  /** The numbers of the first k rows: `slice(0, k)` then `map(o => o.num)`. */
  function Nums(s: seq<Entry>, k: nat): (r: seq<int>)
    requires k <= |s|
    ensures |r| == k && forall i :: 0 <= i < k ==> r[i] == s[i].num
  {
    seq(k, i requires 0 <= i < k => s[i].num)
  }

  /** Number m is ranked before number n under table `scores`. */
  predicate Before(scores: seq<int>, m: int, n: int)
    requires |scores| == Size && 0 <= m < Size && 0 <= n < Size
  {
    scores[m] > scores[n] || (scores[m] == scores[n] && m < n)
  }

  /** `r` is the ranked list of the k best candidates 1..49 of `scores`:
      distinct candidates, in ranking order, and no candidate left out is
      ranked before one that was selected. */
  predicate IsTopK(scores: seq<int>, k: nat, r: seq<int>)
    requires |scores| == Size
  {
    && |r| == k
    && (forall i :: 0 <= i < k ==> 1 <= r[i] < Size)
    && (forall i, j :: 0 <= i < j < k ==> r[i] != r[j] && Before(scores, r[i], r[j]))
    && (forall i, n :: 0 <= i < k && 1 <= n < Size && n !in r ==> Before(scores, r[i], n))
  }

  /** The candidate rows in ranking order. */
  function Ranked(scores: seq<int>): (r: seq<Entry>)
    requires |scores| == Size
    ensures Sorted(r)
  {
    SortEntries(Rows(scores))
  }

  /** The ranked rows hold each candidate once, each with its own score. */
  lemma RankedRows(scores: seq<int>)
    requires |scores| == Size
    ensures |Ranked(scores)| == Size - 1
    ensures forall i :: 0 <= i < Size - 1 ==>
      1 <= Ranked(scores)[i].num < Size && Ranked(scores)[i].score == scores[Ranked(scores)[i].num]
    ensures forall n :: 1 <= n < Size ==> Entry(n, scores[n]) in Ranked(scores)
  {
    var rows := Rows(scores);
    var sorted := Ranked(scores);
    assert |sorted| == |multiset(sorted)| == |multiset(rows)| == |rows|;
    forall i | 0 <= i < Size - 1
      ensures 1 <= sorted[i].num < Size && sorted[i].score == scores[sorted[i].num]
    {
      assert sorted[i] in multiset(rows);
      var j :| 0 <= j < |rows| && rows[j] == sorted[i];
    }
    forall n | 1 <= n < Size
      ensures Entry(n, scores[n]) in sorted
    {
      assert rows[n - 1] in multiset(sorted);
    }
  }

  lemma TopKFacts(scores: seq<int>, k: nat)
    requires |scores| == Size && k < Size
    ensures |Ranked(scores)| == Size - 1
    ensures IsTopK(scores, k, Nums(Ranked(scores), k))
  {
    var sorted := Ranked(scores);
    RankedRows(scores);
    var r := Nums(sorted, k);
    forall i, j | 0 <= i < j < k
      ensures r[i] != r[j] && Before(scores, r[i], r[j])
    {
      assert Precedes(sorted[i], sorted[j]);
    }
    forall i, n | 0 <= i < k && 1 <= n < Size && n !in r
      ensures Before(scores, r[i], n)
    {
      assert Entry(n, scores[n]) in sorted;
      var j :| 0 <= j < Size - 1 && sorted[j] == Entry(n, scores[n]);
      assert j >= k;
      assert Precedes(sorted[i], sorted[j]);
    }
  }

  /** The shared selector: the first k numbers of the stably sorted rows. */
  function TopK(scores: seq<int>, k: nat): (r: seq<int>)
    requires |scores| == Size && k < Size
    ensures IsTopK(scores, k, r)
  {
    TopKFacts(scores, k);
    Nums(Ranked(scores), k)
  }

  /** Position i of a ranking holds the best candidate not placed before it. */
  lemma PlacedBest(scores: seq<int>, k: nat, r: seq<int>, i: nat)
    requires |scores| == Size && IsTopK(scores, k, r) && i < k
    ensures forall n :: 1 <= n < Size && n !in r[..i] && n != r[i] ==> Before(scores, r[i], n)
  {
    assert forall j :: 0 <= j < i ==> r[..i][j] == r[j];
    forall n | 1 <= n < Size && n !in r[..i] && n != r[i] ensures Before(scores, r[i], n) {
      if n in r {
        var j :| 0 <= j < k && r[j] == n;
      }
    }
  }

  /** `IsTopK` determines the ranking completely. */
  lemma TopKUnique(scores: seq<int>, k: nat, r: seq<int>, s: seq<int>)
    requires |scores| == Size && IsTopK(scores, k, r) && IsTopK(scores, k, s)
    ensures r == s
  {
    var i := 0;
    while i < k
      invariant 0 <= i <= k
      invariant r[..i] == s[..i]
    {
      PlacedBest(scores, k, r, i);
      PlacedBest(scores, k, s, i);
      assert forall j :: 0 <= j < i ==> r[..i][j] == r[j] && r[j] != r[i];
      assert forall j :: 0 <= j < i ==> s[..i][j] == s[j] && s[j] != s[i];
      assert r[i] !in r[..i] && s[i] !in s[..i];
      assert r[..i + 1] == r[..i] + [r[i]];
      assert s[..i + 1] == s[..i] + [s[i]];
      i := i + 1;
    }
    assert r == r[..k] && s == s[..k];
  }

  /** Any ranking that meets the specification is the selector's output. */
  lemma TopKCharacterized(scores: seq<int>, k: nat, r: seq<int>)
    requires |scores| == Size && k < Size && IsTopK(scores, k, r)
    ensures TopK(scores, k) == r
  {
    TopKUnique(scores, k, TopK(scores, k), r);
  }

  /** The list 1, 2, ..., k. */
  function FirstNumbers(k: nat): (r: seq<int>)
    ensures |r| == k && forall i :: 0 <= i < k ==> r[i] == i + 1
    ensures forall n :: 1 <= n <= k ==> n in r
  {
    var r := seq(k, i => i + 1);
    assert forall n :: 1 <= n <= k ==> n in r by {
      forall n | 1 <= n <= k ensures n in r {
        assert r[n - 1] == n;
      }
    }
    r
  }

  /** With every candidate on the same score the stable sort keeps number
      order, so the selector returns 1, 2, ..., k (an all-zero table gives
      [1, 2, 3, 4, 5, 6]). */
  lemma TopKConstant(scores: seq<int>, k: nat, c: int)
    requires |scores| == Size && k < Size
    requires forall n :: 1 <= n < Size ==> scores[n] == c
    ensures TopK(scores, k) == FirstNumbers(k)
  {
    var r := FirstNumbers(k);
    forall i, n | 0 <= i < k && 1 <= n < Size && n !in r
      ensures Before(scores, r[i], n)
    {
    }
    TopKCharacterized(scores, k, r);
  }

  /** An ascending list of candidates that share the score `c`, where every
      other candidate scores less or ties with a larger number than the
      list's last, is what the selector returns. */
  lemma TopKLevel(scores: seq<int>, k: nat, r: seq<int>, c: int)
    requires |scores| == Size && 0 < k < Size && |r| == k
    requires forall i :: 0 <= i < k ==> 1 <= r[i] < Size && scores[r[i]] == c
    requires forall i, j :: 0 <= i < j < k ==> r[i] < r[j]
    requires forall n :: 1 <= n < Size && n !in r ==> scores[n] < c || (scores[n] == c && n > r[k - 1])
    ensures TopK(scores, k) == r
  {
    forall i, n | 0 <= i < k && 1 <= n < Size && n !in r ensures Before(scores, r[i], n) {
      if i < k - 1 {
        assert r[i] < r[k - 1];
      }
    }
    TopKCharacterized(scores, k, r);
  }

  /** A candidate scoring strictly more than every other one is ranked first. */
  lemma LeaderFirst(scores: seq<int>, k: nat, r: seq<int>, m: int)
    requires |scores| == Size && IsTopK(scores, k, r) && k > 0 && 1 <= m < Size
    requires forall n :: 1 <= n < Size && n != m ==> scores[n] < scores[m]
    ensures r[0] == m
  {
    PlacedBest(scores, k, r, 0);
    assert m !in r[..0];
  }

  lemma FirstSix()
    ensures FirstNumbers(6) == [1, 2, 3, 4, 5, 6]
  {
  }

  /** The set of elements of a sequence. */
  function Elements(s: seq<int>): set<int> {
    set x | x in s
  }

  lemma {:induction false} ElementsBound(s: seq<int>)
    ensures |Elements(s)| <= |s|
  {
    if |s| > 0 {
      var init := s[..|s| - 1];
      ElementsBound(init);
      assert Elements(s) == Elements(init) + {s[|s| - 1]} by {
        assert s == init + [s[|s| - 1]];
      }
    }
  }

  /** If at least k candidates score `v` or more, every selected number does. */
  lemma TopKThreshold(scores: seq<int>, k: nat, v: int, good: set<int>)
    requires |scores| == Size && k < Size
    requires forall n :: n in good ==> 1 <= n < Size && scores[n] >= v
    requires |good| >= k
    ensures forall i :: 0 <= i < k ==> scores[TopK(scores, k)[i]] >= v
  {
    var r := TopK(scores, k);
    forall i | 0 <= i < k ensures scores[r[i]] >= v {
      if scores[r[i]] < v {
        assert good <= Elements(r) - {r[i]} by {
          forall n | n in good ensures n in Elements(r) - {r[i]} {
            assert n in r;
          }
        }
        ElementsBound(r);
        assert r[i] in Elements(r);
        assert |Elements(r) - {r[i]}| == |Elements(r)| - 1;
        SubsetCard(good, Elements(r) - {r[i]});
        assert false;
      }
    }
  }

  lemma SubsetCard(a: set<int>, b: set<int>)
    requires a <= b
    ensures |a| <= |b|
  {
    assert b == a + (b - a);
  }
}

=== FILE: scenarios.dfy ===
/** Small histories and prediction lists whose outcome can be stated
    exactly, each derived from the ranking specification rather than by
    running the sort. */
module Scenarios {
  import opened Ranking
  import opened Tables
  import opened Models
  import opened Combiner

  // Several lemmas below take a literal draw as a parameter pinned by a
  // `requires d == [...]` rather than writing the literal in the body: the
  // solver then reasons about `d` abstractly and does not unfold the tables
  // on the literal.

  lemma OneDrawOccurrences(d: Draw, n: int)
    ensures Occurrences([d], n) == multiset(d)[n]
  {
    var none: seq<Draw> := [];
    assert [d][..0] == none;
    assert Flatten([d]) == Flatten(none) + d;
  }

  lemma NoDrawOccurrences(draws: seq<Draw>, n: int)
    requires |draws| == 0
    ensures Occurrences(draws, n) == 0
  {
  }

  /** The multiplicities of the first six numbers. */
  lemma FirstSixMultiplicity(n: int)
    ensures multiset([1, 2, 3, 4, 5, 6])[n] == if 1 <= n <= 6 then 1 else 0
  {
    DistinctMultiplicity([1, 2, 3, 4, 5, 6], n);
  }

  /** On a two-draw history the newer draw is recent and the older one old. */
  lemma TwoDrawTrend(a: Draw, b: Draw, n: int)
    requires 0 <= n < Size
    ensures TrendTable([a, b])[n] == multiset(a)[n] as int - multiset(b)[n] as int
  {
    assert [a, b][..1] == [a] && [a, b][1..] == [b];
    OneDrawOccurrences(a, n);
    OneDrawOccurrences(b, n);
  }

  lemma LaterSixMultiplicity(n: int)
    ensures multiset([7, 8, 9, 10, 11, 12])[n] == if 7 <= n <= 12 then 1 else 0
  {
    DistinctMultiplicity([7, 8, 9, 10, 11, 12], n);
  }

  lemma OneInTable(d: Draw)
    requires InTable(d)
    ensures AllInTable([d])
  {
  }

  lemma PairInTable(a: Draw, b: Draw)
    requires InTable(a) && InTable(b)
    ensures AllInTable([a, b])
  {
    assert forall i :: 0 <= i < 2 ==> [a, b][i] == a || [a, b][i] == b;
  }

  // Literal draws pinned as parameters, to keep the solver from unfolding them.
  lemma TwoDrawScore(a: Draw, b: Draw, n: int)
    requires a == [1, 2, 3, 4, 5, 6] && b == [7, 8, 9, 10, 11, 12] && 0 <= n < Size
    ensures 1 <= n <= 6 ==> TrendTable([a, b])[n] == 1
    ensures n > 6 ==> TrendTable([a, b])[n] <= 0
  {
    TwoDrawTrend(a, b, n);
    FirstSixMultiplicity(n);
    LaterSixMultiplicity(n);
  }

  /** A table on which 1..6 tie at c and every larger number scores less
      ranks 1..6 first, in ascending order. */
  lemma FirstSixLead(t: seq<int>, c: int)
    requires |t| == Size
    requires forall n :: 1 <= n <= 6 ==> t[n] == c
    requires forall n :: 6 < n < Size ==> t[n] < c
    ensures TopK(t, Pick) == [1, 2, 3, 4, 5, 6]
  {
    TopKLevel(t, Pick, [1, 2, 3, 4, 5, 6], c);
  }

  /** Newest draw [1..6], older draw [7..12]: numbers 1..6 trend +1 and
      7..12 trend −1, so the model returns [1, 2, 3, 4, 5, 6]. The draws are
      pinned parameters, for solver cost. */
  lemma MovingAverageTwoDraws(a: Draw, b: Draw)
    requires a == [1, 2, 3, 4, 5, 6] && b == [7, 8, 9, 10, 11, 12]
    ensures AllInTable([a, b]) && MovingAveragePrediction([a, b]) == [1, 2, 3, 4, 5, 6]
  {
    assert InTable(a) && InTable(b);
    PairInTable(a, b);
    var t := TrendTable([a, b]);
    forall n | 0 <= n < Size ensures (1 <= n <= 6 ==> t[n] == 1) && (n > 6 ==> t[n] <= 0) {
      TwoDrawScore(a, b, n);
    }
    FirstSixLead(t, 1);
    TopKCharacterized(t, Pick, MovingAveragePrediction([a, b]));
  }

  /** On a one-draw history nothing is recent and the whole history is old. */
  lemma SingleDrawTrend(d: Draw, n: int)
    requires 0 <= n < Size
    ensures TrendTable([d])[n] == -(multiset(d)[n] as int)
  {
    assert [d][..0] == [] && [d][0..] == [d];
    NoDrawOccurrences([d][..0], n);
    OneDrawOccurrences(d, n);
  }

  /** On minus the multiplicities of a draw of at most 43 numbers, the top
      six are numbers the draw misses, in ascending order, and no missed
      number below the last of them is passed over. */
  lemma MissingFirst(t: seq<int>, d: Draw, r: seq<int>)
    requires |t| == Size && |d| <= 43
    requires forall n :: 0 <= n < Size ==> t[n] == -(multiset(d)[n] as int)
    requires IsTopK(t, Pick, r)
    ensures forall i :: 0 <= i < Pick ==> r[i] !in d
    ensures forall i, j :: 0 <= i < j < Pick ==> r[i] < r[j]
    ensures forall n :: 1 <= n < Size && n !in d && n !in r ==> r[Pick - 1] < n
  {
    MissingSelected(t, d, r);
    forall i, j | 0 <= i < j < Pick ensures r[i] < r[j] {
      assert Before(t, r[i], r[j]);
    }
    forall n | 1 <= n < Size && n !in d && n !in r ensures r[Pick - 1] < n {
      assert t[n] == 0;
      assert Before(t, r[Pick - 1], n);
    }
  }

  /** On minus the multiplicities of a draw of at most 43 numbers, every
      selected number scores 0, that is, the draw misses it. */
  lemma MissingSelected(t: seq<int>, d: Draw, r: seq<int>)
    requires |t| == Size && |d| <= 43
    requires forall n :: 0 <= n < Size ==> t[n] == -(multiset(d)[n] as int)
    requires IsTopK(t, Pick, r)
    ensures forall i :: 0 <= i < Pick ==> t[r[i]] == 0 && r[i] !in d
  {
    var missing := set n | 1 <= n < Size && n !in d;
    MissingCandidates(d);
    TopKCharacterized(t, Pick, r);
    TopKThreshold(t, Pick, 0, missing);
  }

  /** A one-draw history: the moving-average model returns the six
      smallest numbers the draw does not hold, in ascending order. */
  lemma MovingAverageSingleDraw(d: Draw)
    requires AllInTable([d]) && |d| <= 43
    ensures forall i :: 0 <= i < Pick ==> MovingAveragePrediction([d])[i] !in d
    ensures forall i, j :: 0 <= i < j < Pick ==> MovingAveragePrediction([d])[i] < MovingAveragePrediction([d])[j]
    ensures forall n :: 1 <= n < Size && n !in d && n !in MovingAveragePrediction([d]) ==>
      MovingAveragePrediction([d])[Pick - 1] < n
  {
    var t := TrendTable([d]);
    forall n | 0 <= n < Size ensures t[n] == -(multiset(d)[n] as int) {
      SingleDrawTrend(d, n);
    }
    MissingFirst(t, d, MovingAveragePrediction([d]));
  }

  lemma ShuffledSixMultiplicity(d: Draw, n: int)
    requires d == [5, 1, 2, 3, 4, 6]
    ensures Occurrences([d], n) == if 1 <= n <= 6 then 1 else 0
  {
    OneDrawOccurrences(d, n);
    DistinctMultiplicity(d, n);
  }

  /** A one-draw history [5, 1, 2, 3, 4, 6]: 5 is in every draw and no number
      repeats, yet 5 does not rank first. All six drawn numbers tie at one
      occurrence, and the tie is broken by number, so `frequencyAnalysis`
      returns [1, 2, 3, 4, 5, 6]. The draw is a pinned parameter, for solver cost. */
  lemma FrequencySingleDraw(d: Draw)
    requires d == [5, 1, 2, 3, 4, 6]
    ensures AllInTable([d]) && FrequencyAnalysis([d]) == [1, 2, 3, 4, 5, 6]
    ensures FrequencyAnalysis([d])[0] != d[0]
  {
    assert InTable(d);
    OneInTable(d);
    var t := OccurrenceTable([d]);
    forall n | 0 <= n < Size ensures (1 <= n <= 6 ==> t[n] == 1) && (n > 6 ==> t[n] < 1) {
      ShuffledSixMultiplicity(d, n);
    }
    FirstSixLead(t, 1);
    TopKCharacterized(t, Pick, FrequencyAnalysis([d]));
  }

  /** A table on which 1..6 tie at c and no larger number scores more
      ranks 1..6 first: the ties go to the smaller numbers. */
  lemma FirstSixTie(t: seq<int>, c: int)
    requires |t| == Size
    requires forall n :: 1 <= n <= 6 ==> t[n] == c
    requires forall n :: 6 < n < Size ==> t[n] <= c
    ensures TopK(t, Pick) == [1, 2, 3, 4, 5, 6]
  {
    TopKLevel(t, Pick, [1, 2, 3, 4, 5, 6], c);
  }

  // The literal draws are pinned parameters, to keep the solver from unfolding them.
  lemma NewestDrawGaps(a: Draw, b: Draw, n: int)
    requires a == [1, 2, 3, 4, 5, 6] && b == [7, 8, 9, 10, 11, 12] && 0 <= n < Size
    requires AllInTable([a, b])
    ensures 1 <= n <= 6 ==> Gaps([a, b])[n] == 2
    ensures 6 < n ==> Gaps([a, b])[n] <= 2
  {
    var g := Gaps([a, b]);
    if 1 <= n <= 6 {
      assert n in a && n !in b;
      if !Absent([a, b], n) {
        assert n in [a, b][2 - g[n]];
      }
    } else if 6 < n {
      GapExtremes([a, b], n, n);
      if !Absent([a, b], n) {
        assert g[n] <= 2;
      }
    }
  }

  /** Newest draw [1..6] first, as the history is written, then [7..12]:
      `overdueAnalysis` returns exactly the newest draw. Its numbers were
      last seen at index 0, so their gap is 2, as large as the gap of the
      numbers 13..49 no draw holds, and they win the tie by number. The
      draws are pinned parameters, for solver cost. */
  lemma OverdueNewestDraw(a: Draw, b: Draw)
    requires a == [1, 2, 3, 4, 5, 6] && b == [7, 8, 9, 10, 11, 12]
    ensures AllInTable([a, b]) && OverdueAnalysis([a, b]) == [1, 2, 3, 4, 5, 6]
  {
    assert InTable(a) && InTable(b);
    PairInTable(a, b);
    var g := Gaps([a, b]);
    forall n | 0 <= n < Size ensures (1 <= n <= 6 ==> g[n] == 2) && (6 < n ==> g[n] <= 2) {
      NewestDrawGaps(a, b, n);
    }
    FirstSixTie(g, 2);
  }

  lemma AllEvenMultiplicity(n: int)
    ensures multiset([2, 4, 6, 8, 10, 12])[n] == if n in [2, 4, 6, 8, 10, 12] then 1 else 0
  {
    DistinctMultiplicity([2, 4, 6, 8, 10, 12], n);
  }

  // The literal draw is a pinned parameter, to keep the solver from unfolding it.
  lemma AllEvenCounts(d: Draw, n: int)
    requires d == [2, 4, 6, 8, 10, 12] && 0 <= n < Size
    ensures ParityTable([d], 1)[n] == 0
    ensures ParityTable([d], 0)[n] == if n in [2, 4, 6, 8, 10, 12] then 1 else 0
  {
    OneDrawOccurrences(d, n);
    AllEvenMultiplicity(n);
  }

  lemma ZeroFill(t: seq<int>)
    requires |t| == Size && forall n :: 0 <= n < Size ==> t[n] == 0
    ensures TopK(t, 3) == [1, 2, 3]
  {
    TopKLevel(t, 3, [1, 2, 3], 0);
  }

  lemma EvenLead(t: seq<int>)
    requires |t| == Size
    requires forall n :: 0 <= n < Size ==> t[n] == if n in [2, 4, 6, 8, 10, 12] then 1 else 0
    ensures TopK(t, 3) == [2, 4, 6]
  {
    TopKLevel(t, 3, [2, 4, 6], 1);
  }

  lemma Halves(r: seq<int>)
    requires |r| == Pick && r[..3] == [1, 2, 3] && r[3..] == [2, 4, 6]
    ensures r == [1, 2, 3, 2, 4, 6]
  {
    assert r[0] == r[..3][0] && r[1] == r[..3][1] && r[2] == r[..3][2];
    assert r[3] == r[3..][0] && r[4] == r[3..][1] && r[5] == r[3..][2];
  }

  /** A single draw of six even numbers: no odd number occurs, so the odd
      half is the zero-count fill [1, 2, 3], which crosses parity and repeats
      the 2 of the even half. The draw is a pinned parameter, for solver cost. */
  lemma OddEvenAllEven(d: Draw)
    requires d == [2, 4, 6, 8, 10, 12]
    ensures AllInTable([d]) && OddEvenAnalysis([d]) == [1, 2, 3, 2, 4, 6]
  {
    assert InTable(d);
    OneInTable(d);
    var r := OddEvenAnalysis([d]);
    var odd := ParityTable([d], 1);
    var even := ParityTable([d], 0);
    forall n | 0 <= n < Size
      ensures odd[n] == 0
      ensures even[n] == if n in [2, 4, 6, 8, 10, 12] then 1 else 0
    {
      AllEvenCounts(d, n);
    }
    ZeroFill(odd);
    TopKCharacterized(odd, 3, r[..3]);
    EvenLead(even);
    TopKCharacterized(even, 3, r[3..]);
    Halves(r);
  }

  lemma UnanimousVotes(preds: seq<seq<int>>, n: int)
    requires |preds| == 8 && 0 <= n < Size
    requires forall i :: 0 <= i < 8 ==> multiset(preds[i]) == multiset([1, 2, 3, 4, 5, 6])
    ensures 1 <= n <= 6 ==> Votes(preds)[n] == 9
    ensures n > 6 ==> Votes(preds)[n] == 0
  {
    VotesOfCopies(preds, [1, 2, 3, 4, 5, 6], n);
    FirstSixMultiplicity(n);
  }

  lemma CopyInTable(p: seq<int>)
    requires multiset(p) == multiset([1, 2, 3, 4, 5, 6])
    ensures InTable(p)
  {
    forall j | 0 <= j < |p| ensures 0 <= p[j] < Size {
      assert p[j] in multiset(p);
      FirstSixMultiplicity(p[j]);
    }
  }

  /** Eight predictions that each list 1..6 once, in any order: 1..6 get
      seven single votes and one double vote each, nothing else gets a vote,
      and the ensemble returns [1, 2, 3, 4, 5, 6]. */
  lemma EnsembleUnanimous(preds: seq<seq<int>>)
    requires |preds| == 8
    requires forall i :: 0 <= i < 8 ==> multiset(preds[i]) == multiset([1, 2, 3, 4, 5, 6])
    ensures AllInTable(preds)
    ensures Ensemble(preds) == [1, 2, 3, 4, 5, 6]
  {
    forall i | 0 <= i < 8 ensures InTable(preds[i]) {
      CopyInTable(preds[i]);
    }
    var t := Votes(preds);
    forall n | 0 <= n < Size ensures (1 <= n <= 6 ==> t[n] == 9) && (n > 6 ==> t[n] == 0) {
      UnanimousVotes(preds, n);
    }
    FirstSixLead(t, 9);
    TopKCharacterized(t, Pick, Ensemble(preds));
  }
}

=== FILE: tables.dfy ===
/** Score tables built the way the models build them: a 50-entry array,
    updated number by number while walking the draws in history order
    (`draws.forEach((draw, idx) => draw.forEach(num => ...)))`). Each fold is
    tied to a reference definition that does not walk a table: occurrences
    in the flattened history, a weighted sum of multiplicities, or the
    largest index of a draw holding the number. */
module Tables {
  import opened Ranking

  /** One line of the history: the numbers of one draw. */
  type Draw = seq<int>

  /** Every number of the draw indexes the 50-entry tables. */
  predicate InTable(d: Draw) {
    forall j :: 0 <= j < |d| ==> 0 <= d[j] < Size
  }

  /** What the selector returns indexes the tables. */
  lemma SelectedInTable(scores: seq<int>, k: nat, r: seq<int>)
    requires |scores| == Size && IsTopK(scores, k, r)
    ensures InTable(r)
  {
  }

  predicate AllInTable(draws: seq<Draw>) {
    forall i :: 0 <= i < |draws| ==> InTable(draws[i])
  }

  /** `Array(50).fill(v)` */
  function Filled(v: int): (t: seq<int>)
    ensures |t| == Size && forall n :: 0 <= n < Size ==> t[n] == v
  {
    seq(Size, _ => v)
  }

  /** All numbers of the history, draw after draw. */
  function Flatten(draws: seq<Draw>): seq<int> {
    if |draws| == 0 then [] else Flatten(draws[..|draws| - 1]) + draws[|draws| - 1]
  }

  /** How many times n is drawn over the whole history. */
  function Occurrences(draws: seq<Draw>, n: int): nat {
    multiset(Flatten(draws))[n]
  }

  /** Σ over draws i of weight(i, n) times the multiplicity of n in draws[i]. */
  function WeightedCount(draws: seq<Draw>, weight: (int, int) -> int, n: int): int {
    if |draws| == 0 then 0
    else
      var last := |draws| - 1;
      WeightedCount(draws[..last], weight, n) + weight(last, n) * multiset(draws[last])[n]
  }

  /** `draw.forEach(num => t[num] += weight(idx, num))` */
  function AddDraw(t: seq<int>, d: Draw, idx: int, weight: (int, int) -> int): (r: seq<int>)
    requires |t| == Size && InTable(d)
    ensures |r| == Size
    decreases |d|
  {
    if |d| == 0 then t
    else AddDraw(t[d[0] := t[d[0]] + weight(idx, d[0])], d[1..], idx, weight)
  }

  /** After the walk over a draw, entry n has grown by its weight once per
      occurrence of n in the draw. */
  lemma {:induction false} AddDrawCounts(t: seq<int>, d: Draw, idx: int, weight: (int, int) -> int, n: int)
    requires |t| == Size && InTable(d) && 0 <= n < Size
    ensures AddDraw(t, d, idx, weight)[n] == t[n] + weight(idx, n) * multiset(d)[n]
    decreases |d|
  {
    if |d| > 0 {
      var t' := t[d[0] := t[d[0]] + weight(idx, d[0])];
      AddDrawCounts(t', d[1..], idx, weight, n);
      AddDrawStep(d, n, weight(idx, n));
    }
  }

  lemma AddDrawStep(d: Draw, n: int, w: int)
    requires |d| > 0
    ensures w * multiset(d)[n] == (if n == d[0] then w else 0) + w * multiset(d[1..])[n]
  {
    assert d == [d[0]] + d[1..];
    assert multiset(d)[n] == (if n == d[0] then 1 else 0) + multiset(d[1..])[n];
  }

  /** The table after walking the whole history from `Array(50).fill(0)`. */
  function Tally(draws: seq<Draw>, weight: (int, int) -> int): (t: seq<int>)
    requires AllInTable(draws)
    ensures |t| == Size
    ensures forall n :: 0 <= n < Size ==> t[n] == WeightedCount(draws, weight, n)
  {
    if |draws| == 0 then Filled(0)
    else
      var last := |draws| - 1;
      var prev := Tally(draws[..last], weight);
      forall n | 0 <= n < Size
        ensures AddDraw(prev, draws[last], last, weight)[n] == WeightedCount(draws, weight, n)
      {
        AddDrawCounts(prev, draws[last], last, weight, n);
      }
      AddDraw(prev, draws[last], last, weight)
  }

  /** Every occurrence counts 1: `t[num]++`. */
  function Unit(): (int, int) -> int {
    (idx, num) => 1
  }

  /** Plain counts: the frequency table. */
  function CountTable(draws: seq<Draw>): (t: seq<int>)
    requires AllInTable(draws)
    ensures |t| == Size
    ensures forall n :: 0 <= n < Size ==> t[n] == Occurrences(draws, n)
  {
    forall n | 0 <= n < Size ensures WeightedCount(draws, Unit(), n) == Occurrences(draws, n) {
      UniformCount(draws, Unit(), n, 1);
    }
    Tally(draws, Unit())
  }

  /** A weight that is the same for every draw turns the weighted count
      into that weight times the number of occurrences. */
  lemma {:induction false} UniformCount(draws: seq<Draw>, weight: (int, int) -> int, n: int, c: int)
    requires forall i :: 0 <= i < |draws| ==> weight(i, n) == c
    ensures WeightedCount(draws, weight, n) == c * Occurrences(draws, n)
  {
    if |draws| > 0 {
      var last := |draws| - 1;
      UniformCount(draws[..last], weight, n, c);
      calc {
        WeightedCount(draws, weight, n);
        c * Occurrences(draws[..last], n) + c * multiset(draws[last])[n];
        c * (Occurrences(draws[..last], n) + multiset(draws[last])[n]);
        { assert Flatten(draws) == Flatten(draws[..last]) + draws[last]; }
        c * Occurrences(draws, n);
      }
    }
  }

  /** `draw.forEach(num => t[num] = idx)` */
  function MarkDraw(t: seq<int>, d: Draw, idx: int): (r: seq<int>)
    requires |t| == Size && InTable(d)
    ensures |r| == Size
    ensures forall n :: 0 <= n < Size ==> r[n] == if n in d then idx else t[n]
    decreases |d|
  {
    if |d| == 0 then t
    else
      assert d == [d[0]] + d[1..];
      MarkDraw(t[d[0] := idx], d[1..], idx)
  }

  /** No draw of the history holds n. */
  predicate Absent(draws: seq<Draw>, n: int) {
    forall i :: 0 <= i < |draws| ==> n !in draws[i]
  }

  /** `lastSeen` after the walk: -1 for a number no draw holds, otherwise
      the LARGEST index of a draw holding it, since later draws overwrite. */
  function LastSeen(draws: seq<Draw>): (t: seq<int>)
    requires AllInTable(draws)
    ensures |t| == Size
    ensures forall n :: 0 <= n < Size ==> -1 <= t[n] < |draws|
    ensures forall n :: 0 <= n < Size ==> (t[n] == -1 <==> Absent(draws, n))
    ensures forall n :: 0 <= n < Size && t[n] != -1 ==>
      n in draws[t[n]] && forall i :: t[n] < i < |draws| ==> n !in draws[i]
  {
    if |draws| == 0 then Filled(-1)
    else
      var last := |draws| - 1;
      var prev := LastSeen(draws[..last]);
      assert forall i :: 0 <= i < last ==> draws[..last][i] == draws[i];
      MarkDraw(prev, draws[last], last)
  }

  /** Σ of the entries of a table. */
  function Sum(s: seq<int>): int {
    if |s| == 0 then 0 else Sum(s[..|s| - 1]) + s[|s| - 1]
  }

  lemma {:induction false} SumConcat(a: seq<int>, b: seq<int>)
    ensures Sum(a + b) == Sum(a) + Sum(b)
    decreases |b|
  {
    if |b| == 0 {
      assert a + b == a;
    } else {
      assert (a + b)[..|a + b| - 1] == a + b[..|b| - 1];
      SumConcat(a, b[..|b| - 1]);
    }
  }

  lemma {:induction false} SumUpdate(s: seq<int>, i: nat, v: int)
    requires i < |s|
    ensures Sum(s[i := v]) == Sum(s) - s[i] + v
  {
    var last := |s| - 1;
    if i < last {
      assert s[i := v][..last] == s[..last][i := v];
      SumUpdate(s[..last], i, v);
    } else {
      assert s[i := v][..last] == s[..last];
    }
  }

  lemma {:induction false} SumZero(s: seq<int>)
    requires forall i :: 0 <= i < |s| ==> s[i] == 0
    ensures Sum(s) == 0
  {
    if |s| > 0 {
      SumZero(s[..|s| - 1]);
    }
  }

  /** A history whose every draw holds the numbers of `d`, in any order,
      holds each number |draws| times as often as `d` does. */
  lemma {:induction false} OccurrencesOfCopies(draws: seq<Draw>, d: Draw, n: int)
    requires forall i :: 0 <= i < |draws| ==> multiset(draws[i]) == multiset(d)
    ensures Occurrences(draws, n) == |draws| * multiset(d)[n]
  {
    if |draws| > 0 {
      var last := |draws| - 1;
      assert forall i :: 0 <= i < last ==> draws[..last][i] == draws[i];
      OccurrencesOfCopies(draws[..last], d, n);
      assert Flatten(draws) == Flatten(draws[..last]) + draws[last];
      CountStep(Occurrences(draws, n), Occurrences(draws[..last], n), multiset(d)[n], |draws|);
    }
  }

  lemma CountStep(after: int, before: int, m: int, count: nat)
    requires count > 0 && before == (count - 1) * m && after == before + m
    ensures after == count * m
  {
  }

  lemma MulSucc(w: int, k: nat)
    ensures w * (k + 1) == w + w * k
  {
  }

  lemma WeightTail(d: Draw, idx: int, weight: (int, int) -> int, w: int)
    requires |d| > 0 && forall j :: 0 <= j < |d| ==> weight(idx, d[j]) == w
    ensures forall j :: 0 <= j < |d[1..]| ==> weight(idx, d[1..][j]) == w
  {
    forall j | 0 <= j < |d[1..]| ensures weight(idx, d[1..][j]) == w {
      assert d[1..][j] == d[j + 1];
    }
  }

  lemma SumStep(after: int, mid: int, before: int, w: int, count: nat)
    requires count > 0 && after == mid + w * (count - 1) && mid == before + w
    ensures after == before + w * count
  {
    MulSucc(w, count - 1);
  }

  /** Adding weight w for each number of a draw raises the table's total by w·|d|. */
  lemma {:induction false} AddDrawSum(t: seq<int>, d: Draw, idx: int, weight: (int, int) -> int, w: int)
    requires |t| == Size && InTable(d)
    requires forall j :: 0 <= j < |d| ==> weight(idx, d[j]) == w
    ensures Sum(AddDraw(t, d, idx, weight)) == Sum(t) + w * |d|
    decreases |d|
  {
    if |d| > 0 {
      assert weight(idx, d[0]) == w;
      var t' := t[d[0] := t[d[0]] + w];
      assert AddDraw(t, d, idx, weight) == AddDraw(t', d[1..], idx, weight);
      SumUpdate(t, d[0], t[d[0]] + w);
      WeightTail(d, idx, weight, w);
      AddDrawSum(t', d[1..], idx, weight, w);
      SumStep(Sum(AddDraw(t, d, idx, weight)), Sum(t'), Sum(t), w, |d|);
    }
  }

  /** A sequence without repeats holds each of its elements once. */
  lemma {:induction false} DistinctMultiplicity(s: seq<int>, n: int)
    requires forall i, j :: 0 <= i < j < |s| ==> s[i] != s[j]
    ensures multiset(s)[n] == if n in s then 1 else 0
  {
    if |s| > 0 {
      var init := s[..|s| - 1];
      assert s == init + [s[|s| - 1]];
      DistinctMultiplicity(init, n);
    }
  }

  /** The numbers lo, ..., hi - 1. */
  function Interval(lo: int, hi: int): (s: set<int>)
    ensures forall n :: n in s <==> lo <= n < hi
    ensures lo <= hi ==> |s| == hi - lo
    decreases hi - lo
  {
    if hi <= lo then {} else Interval(lo, hi - 1) + {hi - 1}
  }

  /** At least six candidates are missing from a draw of at most 43 numbers. */
  lemma MissingCandidates(d: Draw)
    requires |d| <= 43
    ensures |set n | 1 <= n < Size && n !in d| >= 6
  {
    var missing := set n | 1 <= n < Size && n !in d;
    ElementsBound(d);
    SubsetCard(Interval(1, Size), missing + Elements(d));
    assert |missing + Elements(d)| <= |missing| + |Elements(d)|;
  }
}
